=== FILE: README.md ===
# Mahjong score calculator: a Dafny model

The app has two screens. On the input screen the user enters a game number, a
start and an end time, four player names and four scores. The "calculate"
button checks that every field is filled in and that the scores add up to
100000. Only then does it navigate to the result screen.

The result screen does four things:

- it parses the scores and ranks the players by descending score, keeping
  the input order among equal scores;
- it prints one line per player: rank, name, score and uma, where uma is
  (score - 25000) / 1000 with one decimal;
- it shows a six-line summary;
- it offers a back button that reopens the input screen with the fields as
  they were entered.

The model lifts this logic out of the UI callbacks into pure functions:

- `Wrappers`: `Option`.
- `IntText`: Kotlin's 32-bit `Int`, plus `toIntOrNull` and `toString` on
  ASCII decimal text.
- `Delimited`: `joinToString(",")` and `split(",")`, with their round trips.
- `MainActivity`:
  - the form and its validation (`Submit`);
  - the digit filter of the number fields and typing into the form;
  - the button's effect on the error message;
  - the navigation arguments of both routes.
- `Ranking`: `zip` and the stable `sortedByDescending`.
- `ResultScreen`: uma in integer tenths, the line format, the summary, the
  crash when fewer than four players are ranked, and the back route.
- `Flow`: submit-then-back round trip and a worked example.

Two details of the uma column, modelled as the code computes them:

- A score of exactly 25000 prints as "+0.0", not "0.0": `uma >= 0` holds for
  0.0.
- Scores from 24950 to 24999 print as "-0.0": the unrounded uma is negative,
  so there is no '+', and `round` keeps the sign of zero.

## Model

| member | source | states |
|---|---|---|
| MainActivity.Submit | code/MainActivity.kt:178-203 | The missing-field error comes exactly when a field is empty. With all fields filled, a total above 100000 gives "exceeded" with total - 100000 and a total below gives "short" with 100000 - total; both amounts are positive. The button navigates to the result route if and only if every field is filled and the exact total is 100000. |
| MainActivity.Complete | code/MainActivity.kt:180-181 | Every field is non-empty. `Submit` states that the missing-field error comes exactly when this fails. |
| MainActivity.Total | code/MainActivity.kt:186 | The exact sum of `toIntOrNull() ?: 0` over the scores is non-negative when every score is a digit string. `SumAsWritten` relates it to the `Int` sum. |
| MainActivity.EncodeRoute | code/MainActivity.kt:197-203 | Builds a route from the five fields, joining each list with ",". `SubmitCarriesRawFields`, `OpenEncodedRoute` and `Flow.EditRoundTrip` state what each screen reads back from it. |
| MainActivity.SubmitAsWritten | code/MainActivity.kt:186-195 | The button as written, with `Int` arithmetic: missing field iff a field is empty, and navigation iff every field is filled and the total taken modulo 2^32 (into the `Int` range) is 100000. |
| MainActivity.SumAsWritten | code/MainActivity.kt:186 | `sumOf` with an `Int` accumulator, adding one score at a time and wrapping at each step, equals the exact total wrapped once. |
| MainActivity.AsWrittenAgreesInRange | code/MainActivity.kt:186-195 | Whenever the exact total fits in an `Int` and its difference to 100000 is above `Int.MIN_VALUE`, so that `-difference` fits too, the button as written behaves exactly like `Submit`. At a difference of exactly `Int.MIN_VALUE` the negation wraps and the two differ (`AsWrittenNegationWraps`). |
| MainActivity.AsWrittenNegationWraps | code/MainActivity.kt:188-193 | When every field is filled and the exact total is `Int.MIN_VALUE` + 100000 (scores "-2147483648" and "100000", say), the difference is `Int.MIN_VALUE` and `-difference` wraps back to it: the button as written shows a shortfall of -2147483648 where `Submit` shows 2147483648. |
| MainActivity.WrappedTotalPassesCheck | code/MainActivity.kt:186-187 | Scores "2147483647", "2147483647", "100002", "0" pass the check as written, although their exact total is 100000 + 2^32 and `Submit` reports it as exceeded by 2^32. |
| MainActivity.FilterDigits | code/MainActivity.kt:218-222 | A new value is taken exactly when all its characters are digits (the empty value included). Otherwise the field keeps its old value, so a field holding only digits keeps holding only digits. |
| MainActivity.Edit | code/MainActivity.kt:127-169 | Typing into one field changes that field and no other, and keeps the number of names and scores. The start and end time take the new value. The game number and a score take it only when it is all digits; otherwise nothing changes. A name or an accepted score replaces exactly that entry and no other. The digit-only invariant of the number fields is kept. |
| MainActivity.EditsKeepDigits | code/MainActivity.kt:127-169 | No sequence of keystrokes puts a non-digit into the game number or a score field. |
| MainActivity.Press | code/MainActivity.kt:178-195 | A press leaves the form as it is. The message it shows is exactly the rejection `Submit` gives, and the route it takes is exactly the one `Submit` navigates to. It navigates exactly when it leaves no error message, which happens exactly when every field is filled and the exact total is 100000. The button as written checks the total modulo 2^32 instead: see `SubmitAsWritten` and the Findings row. |
| MainActivity.PressForgetsOldMessage | code/MainActivity.kt:179 | Because the message is cleared first, the press does not depend on the message shown before. Pressing twice in a row gives the same result as pressing once. |
| MainActivity.OpenMain | code/MainActivity.kt:40-51 | An absent list argument gives four empty fields. A present one gives a non-empty list whose comma-join is the argument again. |
| MainActivity.AbsentArgsGiveFreshForm | code/MainActivity.kt:40-51 | The "main/..." route with every argument absent opens the same blank form as the bare "main" route. |
| MainActivity.OpenEncodedRoute | code/ResultScreen.kt:68-72 | A route built from non-empty, comma-free name and score lists reopens the input screen with exactly the given game number, times, names and scores. |
| MainActivity.OpenResult | code/MainActivity.kt:76-81 | The result screen gets the route's game number and times. Each list argument splits into one more entry than it has commas; no entry contains a comma, and joining the entries with "," gives the argument back. |
| MainActivity.SubmitCarriesRawFields | code/MainActivity.kt:197-203 | When submit navigates, the name and score lists are non-empty and no entry contains a comma, the result screen receives the game number, times, names and raw score strings exactly as typed. |
| Delimited.Split | code/MainActivity.kt:50-51 | `split(",")` gives one piece more than there are commas, and no piece contains a comma. |
| Delimited.Join | code/MainActivity.kt:199-201 | `joinToString(",")`. `SplitJoin` and `JoinSplit` state the two round trips with `Split`. |
| Delimited.SplitJoin | code/MainActivity.kt:199-201 | Joining a non-empty list of comma-free entries with "," and splitting on "," gives the same entries back. The empty list joins to "", which splits to one empty entry. |
| Delimited.JoinSplit | code/MainActivity.kt:50-51 | Splitting any string on "," and joining the pieces with "," gives the string back. |
| Delimited.SplitDefault | code/MainActivity.kt:43-44 | The default ",,," splits into exactly four empty strings. |
| IntText.Wrap32 | code/MainActivity.kt:186 | The wrapped value is an `Int`, equals the input when that is already an `Int`, and differs from it by a multiple of 2^32. |
| IntText.WrapAdd | code/MainActivity.kt:186 | Wrapping after each addition gives the same result as wrapping once at the end. |
| IntText.ParseInt | code/MainActivity.kt:186 | `toIntOrNull` accepts only an optional '+' or '-' followed by at least one digit, with a value in the `Int` range. A digit string parses exactly when its value is at most `Int.MAX_VALUE`, leading zeros allowed, and yields that value. "+" followed by digits parses exactly when the value is at most `Int.MAX_VALUE`, and "-" followed by digits exactly when it is at most 2147483648, to the negated value. |
| IntText.ParseOrZero | code/ResultScreen.kt:29 | `toIntOrNull() ?: 0` is always an `Int`. It is the parsed value when there is one and 0 otherwise, and it is non-negative on digit strings. |
| IntText.NatToString | code/ResultScreen.kt:37 | The decimal text of a natural number is a non-empty digit string without a leading zero that denotes the number. |
| IntText.IntToString | code/ResultScreen.kt:37 | `Int.toString()` starts with '-' exactly for negative values, and every other character is a digit. It has no leading zeros: it starts with '0' only when it is "0", and a negative value's first digit is never '0'. With `ParseIntToString` this fixes the text exactly. |
| IntText.ParseIntToString | code/ResultScreen.kt:37 | Every `Int` printed with `toString` parses back to itself with `toIntOrNull`. |
| Ranking.ParseScores | code/ResultScreen.kt:29 | Each score string maps to `toIntOrNull() ?: 0` of it, position by position. |
| Ranking.Zip | code/ResultScreen.kt:32 | `zip` is as long as the shorter list and pairs the entries at equal positions. |
| Ranking.Insert | code/ResultScreen.kt:33 | One step of the sort adds exactly the new entry: the length grows by one and the multiset gains that entry. |
| Ranking.SortByScoreDescending | code/ResultScreen.kt:33 | The sort is a permutation of its input. |
| Ranking.Ranked | code/ResultScreen.kt:32-33 | The ranking is as long as the shorter input list and is a permutation of the zipped pairs. Scores never increase along it. For every score, the players holding it appear in the same order as in the input. |
| Ranking.SortDescending | code/ResultScreen.kt:33 | The sort's output never increases in score. |
| Ranking.SortStable | code/ResultScreen.kt:33 | The sort keeps the input order among entries with equal scores. |
| Ranking.StableDescendingIsUnique | code/ResultScreen.kt:33 | Two lists that both never increase in score and that hold the same entries, in the same order, for every score are equal. So any stable descending sort, TimSort included, gives the ranking modelled here. |
| Ranking.SortKeepsDescending | code/ResultScreen.kt:33 | The sort leaves an input that is already descending unchanged. |
| Ranking.RankedKeepsInputOrder | code/ResultScreen.kt:32-33 | Players entered in descending order of score are ranked in the order entered. |
| ResultScreen.UmaTenths | code/ResultScreen.kt:36-37 | `round(uma * 10)` lies within half a tenth of (score - 25000) / 100, and an exact tie goes to the even neighbour. It is non-negative from 25000 up and non-positive below. |
| ResultScreen.RoundHalfEvenUnique | code/ResultScreen.kt:37 | Any count of tenths that rounds to nearest with ties to even is the one `UmaTenths` gives. |
| ResultScreen.UmaText | code/ResultScreen.kt:37 | The printed rounded uma starts with '-' exactly when the score is below 25000, "-0.0" included. After that sign it is a whole part without leading zeros, '.', and one digit, and these digits with the '.' removed denote the absolute value of `UmaTenths`. |
| ResultScreen.UmaColumn | code/ResultScreen.kt:37 | The uma column starts with '+' from 25000 up and with '-' below, and no other sign follows. |
| ResultScreen.UmaColumnValue | code/ResultScreen.kt:36-37 | After its sign, the uma column prints the absolute value of `UmaTenths` with one fractional digit and no leading zeros. |
| ResultScreen.Line | code/ResultScreen.kt:37 | The line "{rank}. {name} {score} {sign}{uma}". Its properties are stated by `LineRank` (the rank reads back), `LineHasNoBreak`, `UmaColumn` and `UmaColumnValue` (the uma column), and `Flow.ExampleLines` (four concrete lines). |
| ResultScreen.Lines | code/ResultScreen.kt:35-38 | One line per ranked player, the entry at position i with rank i + 1; `LineRank` states that each rank prints as i + 1. |
| ResultScreen.UmaAtBaseline | code/ResultScreen.kt:36-37 | 25000 points print "+0.0". 24990 points print "-0.0". |
| ResultScreen.LineRank | code/ResultScreen.kt:35-37 | Line i starts with a rank that reads back as i + 1, followed by ". ". |
| ResultScreen.LineHasNoBreak | code/ResultScreen.kt:35-38 | A line contains no line break when the player's name has none. |
| ResultScreen.Summary | code/ResultScreen.kt:40-47 | The trimmed multi-line string: six parts joined with line breaks. `SummarySixLines` states that it reads back as exactly those six lines. |
| ResultScreen.SummarySixLines | code/ResultScreen.kt:40-47 | Without line breaks in its parts, the summary splits at line breaks into exactly six lines: the game number, "start~end", and the first four lines in order. |
| ResultScreen.Show | code/ResultScreen.kt:40-72 | The screen crashes exactly when fewer than four players can be ranked. Otherwise its back button leads to the input screen, which reopens with each list split back from its comma-join; when no name or score contains a comma, it reopens with exactly the game number, times, names and raw scores the screen received. |
| ResultScreen.OpenBackRoute | code/ResultScreen.kt:68-72 | The result screen's back route reopens the input screen with each list split back from its comma-join, and with exactly the given names and scores when both lists are non-empty and comma-free. |
| ResultScreen.ResultTextLines | code/ResultScreen.kt:29-47 | The shown text's lines are the game number, "start~end", then the lines for ranks 1 to 4, with scores that never increase. |
| Flow.EditRoundTrip | code/ResultScreen.kt:68-72 | After a successful submit with comma-free names and scores, the result screen gets the raw fields. Its back button reopens the input screen with exactly the form that was submitted. |
| Flow.WorkedExample | code/ResultScreen.kt:29-33 | Game 12 with 40000, 30000, 20000 and 10000 points passes the check and is ranked A, B, C, D. |
| Flow.ExampleLines | code/ResultScreen.kt:35-37 | That ranking prints "1. A 40000 +15.0", "2. B 30000 +5.0", "3. C 20000 -5.0" and "4. D 10000 -15.0". |

## Left out

- Compose layout, `remember`/`mutableStateOf` state, `NavHost` route matching, the clipboard and the Toast: these are UI and platform calls. A press is a function from the screen state to the new state and an optional route.
- The Korean message texts: the three messages are the `FormError` cases, which carry the number each message prints.
- IntText.IsDigit: accepts ASCII '0'..'9' only. Kotlin's `isDigit` and `toIntOrNull` also accept other Unicode decimal digits.
- ResultScreen.UmaTenths: computes with exact integers. The source computes `(score - 25000) / 1000.0 * 10` in `Double`, and the model takes that product to be exactly (score - 25000) / 100, ties included. Rounding error in the double product is not modelled.
- ResultScreen.Line: does not model the `Int` wrap of `score - 25000` for scores below -2147458648; those scores cannot reach the screen through a passing submit of four digit strings.
- ResultScreen.Summary: modelled as the six parts joined with '\n'. This matches `trimIndent` when no field contains '\n' or '\r'. A field with a line break, or with '\r', which `lines()` also splits on, is outside the model.
- Ranking.SortByScoreDescending: is an insertion sort, not the library's TimSort. `Ranking.StableDescendingIsUnique` shows that every stable descending sort gives the same list.
- MainActivity.Edit: requires the index to exist. `repeat(4)` always shows indices 0 to 3, and a route with fewer than four entries crashes while the screen is being drawn; that crash is UI and is not modelled.
- MainActivity.OpenResult: the result route's arguments are always present. The `?: ""` and `?: listOf()` fallbacks are not modelled because the route pattern makes every argument mandatory.
- The navigation library's escaping of '/' and other characters inside route arguments is not modelled. The round-trip lemmas require comma-free entries instead.

## Findings

| source | as written | input that shows it | evidently intended | confidence | as-written member | corrected member |
|---|---|---|---|---|---|---|
| code/MainActivity.kt:186-187 | `sumOf` adds the parsed scores in `Int`, so the total wraps at 2^32 | scores "2147483647", "2147483647", "100002", "0": their exact sum 4295067296 wraps to 100000, and the form navigates | the scores must really add up to 100000 | not executed | MainActivity.WrappedTotalPassesCheck | MainActivity.Submit |

=== FILE: delimited.dfy ===
/**
 Kotlin's `List<String>.joinToString(sep)` and `String.split(sep)` for a
 one-character separator. `split` keeps empty pieces, including leading and
 trailing ones, and never returns an empty list.
 */
module Delimited {

  /** Number of occurrences of `c` in `s`. */
  function Count(s: string, c: char): nat {
    if |s| == 0 then 0 else (if s[0] == c then 1 else 0) + Count(s[1..], c)
  }

  /** No element of `xs` contains `sep`. */
  predicate FreeOf(xs: seq<string>, sep: char) {
    forall i :: 0 <= i < |xs| ==> sep !in xs[i]
  }

  function Join(xs: seq<string>, sep: char): string {
    if |xs| == 0 then ""
    else if |xs| == 1 then xs[0]
    else xs[0] + [sep] + Join(xs[1..], sep)
  }

  function Split(s: string, sep: char): (r: seq<string>)
    ensures |r| == Count(s, sep) + 1
    ensures FreeOf(r, sep)
  {
    if |s| == 0 then [""]
    else
      var rest := Split(s[1..], sep);
      if s[0] == sep then [""] + rest
      else [[s[0]] + rest[0]] + rest[1..]
  }

  /**
   Splitting a joined non-empty list of separator-free strings gives the list
   back; the empty list joins to "", which splits to `[""]`.
   */
  lemma {:induction false} SplitJoin(xs: seq<string>, sep: char)
    requires |xs| >= 1
    requires FreeOf(xs, sep)
    ensures Split(Join(xs, sep), sep) == xs
  {
    if |xs| == 1 {
      SplitFree(xs[0], sep);
    } else {
      SplitJoin(xs[1..], sep);
      SplitAfterPiece(xs[0], sep, Join(xs[1..], sep));
      assert [xs[0]] + xs[1..] == xs;
    }
  }

  /** Joining the pieces of a split gives the string back. */
  lemma {:induction false} JoinSplit(s: string, sep: char)
    ensures Join(Split(s, sep), sep) == s
  {
    if |s| > 0 {
      var rest := Split(s[1..], sep);
      JoinSplit(s[1..], sep);
      if s[0] == sep {
        assert ([""] + rest)[1..] == rest;
      } else {
        JoinConsChar(s[0], rest, sep);
      }
      assert [s[0]] + s[1..] == s;
    }
  }

  /** The navigation default ",,," stands for four empty fields. */
  lemma SplitDefault()
    ensures Split(",,,", ',') == ["", "", "", ""]
  {
    assert ",,,"[1..] == ",,";
    assert ",,"[1..] == ",";
    assert ","[1..] == "";
  }

  lemma {:induction false} SplitFree(x: string, sep: char)
    requires sep !in x
    ensures Split(x, sep) == [x]
  {
    if |x| > 0 {
      assert sep !in x[1..] by {
        assert forall i :: 0 <= i < |x[1..]| ==> x[1..][i] == x[i + 1];
      }
      SplitFree(x[1..], sep);
      assert [x[0]] + x[1..] == x;
    }
  }

  lemma {:induction false} SplitAfterPiece(x: string, sep: char, t: string)
    requires sep !in x
    ensures Split(x + [sep] + t, sep) == [x] + Split(t, sep)
  {
    var s := x + [sep] + t;
    if |x| == 0 {
      assert s[1..] == t;
    } else {
      assert s[1..] == x[1..] + [sep] + t;
      assert sep !in x[1..] by {
        assert forall i :: 0 <= i < |x[1..]| ==> x[1..][i] == x[i + 1];
      }
      SplitAfterPiece(x[1..], sep, t);
      assert [x[0]] + x[1..] == x;
    }
  }

  lemma JoinConsChar(c: char, rest: seq<string>, sep: char)
    requires |rest| >= 1
    ensures Join([[c] + rest[0]] + rest[1..], sep) == [c] + Join(rest, sep)
  {
    var xs := [[c] + rest[0]] + rest[1..];
    assert xs[1..] == rest[1..];
  }
}

=== FILE: flow.dfy ===
/**
 The two screens together: a submit that passes, the result screen it opens,
 and the back button that reopens the input screen.
 */
module Flow {
  import opened IntText
  import opened Delimited
  import opened Ranking
  import opened MainActivity
  import opened ResultScreen

  /**
   Submit, then back: the input screen reopens with the very form that was
   submitted, names in input order and scores as typed.
   */
  lemma {:induction false} EditRoundTrip(f: Form)
    requires |f.playerNames| >= 4 && |f.playerScores| >= 4
    requires FreeOf(f.playerNames, COMMA) && FreeOf(f.playerScores, COMMA)
    requires Submit(f).Navigate?
    ensures var a := OpenResult(Submit(f).route);
            && a == ResultArgs(f.gameNumber, f.startTime, f.endTime, f.playerNames, f.playerScores)
            && OpenMain(MainArgsOf(Show(a.gameNumber, a.startTime, a.endTime, a.playerNames, a.playerScores).view.back)) == f
  {
    SubmitCarriesRawFields(f);
    SplitJoin(f.playerNames, COMMA);
    SplitJoin(f.playerScores, COMMA);
  }

  /**
   Game 12 from 19:00 to 21:00 with 40000, 30000, 20000 and 10000 points: the
   submit passes and the ranking keeps the input order. `ExampleLines` gives
   the four lines the result screen prints for this ranking.
   */
  lemma WorkedExample(f: Form)
    requires f == Form("12", "19:00", "21:00", ["A", "B", "C", "D"], ["40000", "30000", "20000", "10000"])
    ensures Submit(f).Navigate?
    ensures Ranked(f.playerNames, f.playerScores)
            == [Player("A", 40000), Player("B", 30000), Player("C", 20000), Player("D", 10000)]
  {
    ExampleSubmits(f);
    ExampleRanked(f.playerNames, f.playerScores);
  }

  lemma ExampleSubmits(f: Form)
    requires f == Form("12", "19:00", "21:00", ["A", "B", "C", "D"], ["40000", "30000", "20000", "10000"])
    ensures Submit(f).Navigate?
  {
    assert Complete(f);
    ExampleTotal(f.playerScores);
  }

  lemma ExampleTotal(scores: seq<string>)
    requires scores == ["40000", "30000", "20000", "10000"]
    ensures Total(scores) == TARGET_TOTAL
  {
    ExampleParses();
    TotalOfFour(scores);
  }

  lemma ExampleRanked(names: seq<string>, scores: seq<string>)
    requires names == ["A", "B", "C", "D"] && scores == ["40000", "30000", "20000", "10000"]
    ensures Ranked(names, scores) == [Player("A", 40000), Player("B", 30000), Player("C", 20000), Player("D", 10000)]
  {
    ExampleZip(names, scores);
    RankedKeepsInputOrder(names, scores);
  }

  lemma ExampleZip(names: seq<string>, scores: seq<string>)
    requires names == ["A", "B", "C", "D"] && scores == ["40000", "30000", "20000", "10000"]
    ensures Zip(names, ParseScores(scores)) == [Player("A", 40000), Player("B", 30000), Player("C", 20000), Player("D", 10000)]
  {
    ExampleParses();
  }

  /** The result screen's four lines for the worked example's ranking. */
  lemma ExampleLines(r: seq<Player>)
    requires |r| == 4
    requires r[0] == Player("A", 40000) && r[1] == Player("B", 30000)
    requires r[2] == Player("C", 20000) && r[3] == Player("D", 10000)
    ensures Lines(r)[0] == "1. A 40000 +15.0"
    ensures Lines(r)[1] == "2. B 30000 +5.0"
    ensures Lines(r)[2] == "3. C 20000 -5.0"
    ensures Lines(r)[3] == "4. D 10000 -15.0"
  {
    ExampleLine1(r[0]);
    ExampleLine2(r[1]);
    ExampleLine3(r[2]);
    ExampleLine4(r[3]);
  }

  lemma ExampleLine1(p: Player)
    requires p == Player("A", 40000)
    ensures Line(1, p) == "1. A 40000 +15.0"
  {
    ScoreDigits4();
    assert UmaTenths(40000) == 150 && NatToString(15) == "15";
    LineOf(1, p, "1", "40000", "+15.0");
  }

  lemma ExampleLine2(p: Player)
    requires p == Player("B", 30000)
    ensures Line(2, p) == "2. B 30000 +5.0"
  {
    ScoreDigits3();
    assert UmaTenths(30000) == 50 && NatToString(5) == "5";
    LineOf(2, p, "2", "30000", "+5.0");
  }

  lemma ExampleLine3(p: Player)
    requires p == Player("C", 20000)
    ensures Line(3, p) == "3. C 20000 -5.0"
  {
    ScoreDigits2();
    assert UmaTenths(20000) == -50 && NatToString(5) == "5";
    LineOf(3, p, "3", "20000", "-5.0");
  }

  lemma ExampleLine4(p: Player)
    requires p == Player("D", 10000)
    ensures Line(4, p) == "4. D 10000 -15.0"
  {
    ScoreDigits1();
    assert UmaTenths(10000) == -150 && NatToString(15) == "15";
    LineOf(4, p, "4", "10000", "-15.0");
  }

  /** A line assembled from the texts of its rank, score and uma column. */
  lemma LineOf(rank: int, p: Player, rankText: string, scoreText: string, umaText: string)
    requires IntToString(rank) == rankText
    requires IntToString(p.score) == scoreText
    requires UmaColumn(p.score) == umaText
    ensures Line(rank, p) == rankText + (". " + p.name + " " + scoreText + " " + umaText)
  {
  }

  lemma ExampleParses()
    ensures ParseOrZero("40000") == 40000 && IntToString(40000) == "40000"
    ensures ParseOrZero("30000") == 30000 && IntToString(30000) == "30000"
    ensures ParseOrZero("20000") == 20000 && IntToString(20000) == "20000"
    ensures ParseOrZero("10000") == 10000 && IntToString(10000) == "10000"
  {
    ScoreDigits4();
    ScoreText("40000", 40000);
    ScoreDigits3();
    ScoreText("30000", 30000);
    ScoreDigits2();
    ScoreText("20000", 20000);
    ScoreDigits1();
    ScoreText("10000", 10000);
  }

  lemma ScoreDigits4()
    ensures NatToString(40000) == "40000"
  {
    NatToStringStep(4, 0);
    NatToStringStep(40, 0);
    NatToStringStep(400, 0);
    NatToStringStep(4000, 0);
  }

  lemma ScoreDigits3()
    ensures NatToString(30000) == "30000"
  {
    NatToStringStep(3, 0);
    NatToStringStep(30, 0);
    NatToStringStep(300, 0);
    NatToStringStep(3000, 0);
  }

  lemma ScoreDigits2()
    ensures NatToString(20000) == "20000"
  {
    NatToStringStep(2, 0);
    NatToStringStep(20, 0);
    NatToStringStep(200, 0);
    NatToStringStep(2000, 0);
  }

  lemma ScoreDigits1()
    ensures NatToString(10000) == "10000"
  {
    NatToStringStep(1, 0);
    NatToStringStep(10, 0);
    NatToStringStep(100, 0);
    NatToStringStep(1000, 0);
  }

  /** A score whose decimal text is `s` is what `s` parses to. */
  lemma ScoreText(s: string, n: nat)
    requires InInt(n) && NatToString(n) == s
    ensures ParseOrZero(s) == n && IntToString(n) == s
  {
    ParseIntToString(n);
  }
}

=== FILE: int_text.dfy ===
/**
 Kotlin's 32-bit `Int` as the app uses it: the value range, two's-complement
 wrap-around, `String.toIntOrNull()` in radix 10 and `Int.toString()`.
 Only the ASCII digits '0'..'9' are digits here.
 */
module IntText {
  import opened Wrappers

  const INT_MIN: int := -0x8000_0000
  const INT_MAX: int := 0x7fff_ffff
  /** Number of distinct `Int` values. */
  const INT_RANGE: int := 0x1_0000_0000

  predicate InInt(x: int) {
    INT_MIN <= x <= INT_MAX
  }

  /** The `Int` that a JVM addition or subtraction yields for the exact result `x`. */
  function Wrap32(x: int): (r: int)
    ensures InInt(r)
    ensures InInt(x) ==> r == x
    ensures (x - r) % INT_RANGE == 0
  {
    (x - INT_MIN) % INT_RANGE + INT_MIN
  }

  /** Wrapping after every step of a sum is the same as wrapping once at the end. */
  lemma WrapAdd(a: int, b: int)
    ensures Wrap32(Wrap32(a) + b) == Wrap32(a + b)
  {
    var q := (a - INT_MIN) / INT_RANGE;
    assert Wrap32(a) == a - INT_RANGE * q;
    ModShift(a + b - INT_MIN, q);
  }

  lemma ModShift(y: int, q: int)
    ensures (y - INT_RANGE * q) % INT_RANGE == y % INT_RANGE
  {
    var d, r := y / INT_RANGE, y % INT_RANGE;
    assert y - INT_RANGE * q == INT_RANGE * (d - q) + r;
    DivModUnique(y - INT_RANGE * q, d - q, r);
  }

  lemma DivModUnique(y: int, d: int, r: int)
    requires 0 <= r < INT_RANGE
    requires y == INT_RANGE * d + r
    ensures y % INT_RANGE == r
  {
  }

  predicate IsDigit(c: char) {
    '0' <= c <= '9'
  }

  predicate AllDigits(s: string) {
    forall i :: 0 <= i < |s| ==> IsDigit(s[i])
  }

  function DigitValue(c: char): (d: nat)
    requires IsDigit(c)
    ensures d < 10
  {
    c as int - '0' as int
  }

  function DigitChar(d: nat): (c: char)
    requires d < 10
    ensures IsDigit(c) && DigitValue(c) == d
  {
    ('0' as int + d) as char
  }

  function Pow10(n: nat): (p: nat)
    ensures p >= 1
  {
    if n == 0 then 1 else 10 * Pow10(n - 1)
  }

  /** The number a digit string denotes, most significant digit first; "" denotes 0. */
  function DigitsValue(s: string): (v: nat)
    requires AllDigits(s)
    ensures v < Pow10(|s|)
  {
    if |s| == 0 then 0 else DigitsValue(s[..|s| - 1]) * 10 + DigitValue(s[|s| - 1])
  }

  /**
   `String.toIntOrNull()`: an optional '+' or '-' followed by at least one digit,
   and nothing else; a value outside the `Int` range is null.
   */
  function ParseInt(s: string): (r: Option<int>)
    ensures r.Some? ==> InInt(r.value) && |s| > 0
    ensures r.Some? ==> AllDigits(s) || (|s| > 1 && (s[0] == '-' || s[0] == '+') && AllDigits(s[1..]))
    ensures AllDigits(s) && |s| > 0 ==> (r.Some? <==> DigitsValue(s) <= INT_MAX)
    ensures AllDigits(s) && r.Some? ==> r.value == DigitsValue(s)
    ensures AllDigits(s) && 0 < |s| <= 9 ==> r.Some?
    ensures |s| > 1 && s[0] == '+' && AllDigits(s[1..]) ==>
              (r.Some? <==> DigitsValue(s[1..]) <= INT_MAX) && (r.Some? ==> r.value == DigitsValue(s[1..]))
    ensures |s| > 1 && s[0] == '-' && AllDigits(s[1..]) ==>
              (r.Some? <==> DigitsValue(s[1..]) <= -INT_MIN) && (r.Some? ==> r.value == -(DigitsValue(s[1..]) as int))
  {
    if |s| == 0 then None
    else if s[0] == '-' || s[0] == '+' then
      if |s| == 1 || !AllDigits(s[1..]) then None
      else
        var magnitude: int := DigitsValue(s[1..]);
        var v: int := if s[0] == '-' then -magnitude else magnitude;
        if InInt(v) then Some(v) else None
    else if !AllDigits(s) then None
    else
      assert |s| <= 9 ==> Pow10(|s|) <= 1_000_000_000 by {
        if |s| <= 9 { Pow10Monotone(|s|, 9); }
      }
      var v := DigitsValue(s);
      if v <= INT_MAX then Some(v) else None
  }

  lemma Pow10Monotone(m: nat, n: nat)
    requires m <= n
    ensures Pow10(m) <= Pow10(n)
  {
  }

  /** `s.toIntOrNull() ?: 0`: the score the app uses for a score string. */
  function ParseOrZero(s: string): (r: int)
    ensures InInt(r)
    ensures AllDigits(s) ==> r >= 0
    ensures ParseInt(s).Some? ==> r == ParseInt(s).value
    ensures ParseInt(s).None? ==> r == 0
  {
    ParseInt(s).GetOr(0)
  }

  /** Decimal text of a natural number, without leading zeros. */
  function NatToString(n: nat): (s: string)
    ensures |s| > 0 && AllDigits(s)
    ensures DigitsValue(s) == n
    ensures s[0] == '0' ==> n == 0
  {
    if n < 10 then [DigitChar(n)]
    else
      var front := NatToString(n / 10);
      var s := front + [DigitChar(n % 10)];
      assert s[..|s| - 1] == front;
      s
  }

  /** Appending a digit to a positive number appends its character to the text. */
  lemma NatToStringStep(n: nat, d: nat)
    requires n > 0 && d < 10
    ensures NatToString(10 * n + d) == NatToString(n) + [DigitChar(d)]
  {
    assert (10 * n + d) / 10 == n && (10 * n + d) % 10 == d;
  }

  /** `Int.toString()`: a '-' in front of negative values. */
  function IntToString(i: int): (s: string)
    ensures |s| > 0
    ensures s[0] == '-' <==> i < 0
    ensures forall k :: 0 < k < |s| ==> IsDigit(s[k])
    ensures s[0] == '0' ==> s == "0"
    ensures i < 0 ==> |s| > 1 && s[1] != '0'
  {
    if i < 0 then "-" + NatToString(-i) else NatToString(i)
  }

  /** Printing an `Int` and parsing it back gives the same `Int`. */
  lemma ParseIntToString(i: int)
    requires InInt(i)
    ensures ParseInt(IntToString(i)) == Some(i)
  {
    var s := IntToString(i);
    if i < 0 {
      assert s[1..] == NatToString(-i);
    }
  }
}

=== FILE: main_activity.dfy ===
/**
 The input screen of `MainActivity.kt`: the form state, the submit button's
 validation, the digit-only filter of the number fields, field edits, and the
 navigation arguments that fill the form when the screen is opened.
 */
module MainActivity {
  import opened Wrappers
  import opened IntText
  import opened Delimited

  /** The points the four scores must add up to. */
  const TARGET_TOTAL: int := 100000

  /** Separator of the name and score lists in a route. */
  const COMMA: char := ','

  /** The form's current field values. The lists have four entries on a fresh screen. */
  datatype Form = Form(
    gameNumber: string,
    startTime: string,
    endTime: string,
    playerNames: seq<string>,
    playerScores: seq<string>)

  /** The three messages the submit button can show. */
  datatype FormError =
    | MissingField
    | ScoreExceeded(points: int)
    | ScoreShort(points: int)

  datatype Destination = MainDest | ResultDest

  /**
   A route "{dest}/{gameNumber}/{startTime}/{endTime}/{playerNames}/{playerScores}"
   as its segments; the two list segments are comma-joined.
   */
  datatype Route = Route(
    dest: Destination,
    gameNumber: string,
    startTime: string,
    endTime: string,
    playerNames: string,
    playerScores: string)

  datatype Submission = Navigate(route: Route) | Rejected(error: FormError)

  /** Every field is filled in. */
  predicate Complete(f: Form) {
    && f.gameNumber != ""
    && f.startTime != ""
    && f.endTime != ""
    && (forall i :: 0 <= i < |f.playerNames| ==> f.playerNames[i] != "")
    && (forall i :: 0 <= i < |f.playerScores| ==> f.playerScores[i] != "")
  }

  /** Exact sum of the scores, an unparsable score counting as 0. */
  function Total(scores: seq<string>): (r: int)
    ensures (forall i :: 0 <= i < |scores| ==> AllDigits(scores[i])) ==> r >= 0
  {
    if |scores| == 0 then 0
    else Total(scores[..|scores| - 1]) + ParseOrZero(scores[|scores| - 1])
  }

  /** `sumOf` over `Int` as the JVM computes it: every addition wraps at 32 bits. */
  function SumAsWritten(scores: seq<string>): (r: int)
    ensures r == Wrap32(Total(scores))
  {
    if |scores| == 0 then 0
    else
      var front := scores[..|scores| - 1];
      var last := ParseOrZero(scores[|scores| - 1]);
      WrapAdd(Total(front), last);
      Wrap32(SumAsWritten(front) + last)
  }

  function EncodeRoute(dest: Destination, gameNumber: string, startTime: string, endTime: string,
                       names: seq<string>, scores: seq<string>): Route
  {
    Route(dest, gameNumber, startTime, endTime, Join(names, COMMA), Join(scores, COMMA))
  }

  /**
   The submit button with the sum checked exactly: completeness first, then
   the total, and navigation to the result screen only when both pass.
   */
  function Submit(f: Form): (r: Submission)
    ensures r == Rejected(MissingField) <==> !Complete(f)
    ensures Complete(f) && Total(f.playerScores) > TARGET_TOTAL ==>
              r == Rejected(ScoreExceeded(Total(f.playerScores) - TARGET_TOTAL))
    ensures Complete(f) && Total(f.playerScores) < TARGET_TOTAL ==>
              r == Rejected(ScoreShort(TARGET_TOTAL - Total(f.playerScores)))
    ensures r.Navigate? <==> Complete(f) && Total(f.playerScores) == TARGET_TOTAL
    ensures r.Rejected? && r.error.ScoreExceeded? ==> r.error.points > 0
    ensures r.Rejected? && r.error.ScoreShort? ==> r.error.points > 0
    ensures r.Navigate? ==> r.route.dest == ResultDest
  {
    if !Complete(f) then Rejected(MissingField)
    else
      var total := Total(f.playerScores);
      if total != TARGET_TOTAL then
        var difference := total - TARGET_TOTAL;
        if difference > 0 then Rejected(ScoreExceeded(difference))
        else Rejected(ScoreShort(-difference))
      else
        Navigate(EncodeRoute(ResultDest, f.gameNumber, f.startTime, f.endTime,
                             f.playerNames, f.playerScores))
  }

  /**
   The submit button as written: the total and the difference are `Int`s,
   so they wrap at 32 bits.
   */
  function SubmitAsWritten(f: Form): (r: Submission)
    ensures r == Rejected(MissingField) <==> !Complete(f)
    ensures r.Navigate? <==> Complete(f) && Wrap32(Total(f.playerScores)) == TARGET_TOTAL
  {
    if !Complete(f) then Rejected(MissingField)
    else
      var total := SumAsWritten(f.playerScores);
      if total != TARGET_TOTAL then
        var difference := Wrap32(total - TARGET_TOTAL);
        if difference > 0 then Rejected(ScoreExceeded(difference))
        else Rejected(ScoreShort(Wrap32(-difference)))
      else
        Navigate(EncodeRoute(ResultDest, f.gameNumber, f.startTime, f.endTime,
                             f.playerNames, f.playerScores))
  }

  /**
   While the exact total is an `Int` and its difference to 100000 is above
   `Int.MIN_VALUE` (so that negating it does not wrap), the wrap-around is invisible.
   */
  lemma AsWrittenAgreesInRange(f: Form)
    requires INT_MIN + TARGET_TOTAL < Total(f.playerScores) <= INT_MAX
    ensures SubmitAsWritten(f) == Submit(f)
  {
    assert SumAsWritten(f.playerScores) == Total(f.playerScores);
  }

  /**
   The lower bound above is tight: when the difference to 100000 is exactly
   `Int.MIN_VALUE`, negating it wraps, so the button as written reports a
   negative shortfall where `Submit` reports 2^31.
   */
  lemma AsWrittenNegationWraps(f: Form)
    requires Complete(f)
    requires Total(f.playerScores) == INT_MIN + TARGET_TOTAL
    ensures SubmitAsWritten(f) == Rejected(ScoreShort(INT_MIN))
    ensures Submit(f) == Rejected(ScoreShort(-INT_MIN))
  {
    assert SumAsWritten(f.playerScores) == Total(f.playerScores);
  }

  /**
   Four digit strings the number fields accept whose `Int` sum wraps round to
   exactly 100000: "2147483647", "2147483647", "100002", "0".
   */
  lemma WrappedTotalPassesCheck()
    ensures var f := Form("1", "19:00", "21:00", ["A", "B", "C", "D"],
                          [NatToString(INT_MAX), NatToString(INT_MAX), NatToString(100002), NatToString(0)]);
            && SubmitAsWritten(f).Navigate?
            && Total(f.playerScores) == TARGET_TOTAL + INT_RANGE
            && Submit(f) == Rejected(ScoreExceeded(INT_RANGE))
  {
    var scores := [NatToString(INT_MAX), NatToString(INT_MAX), NatToString(100002), NatToString(0)];
    ParseIntToString(INT_MAX);
    ParseIntToString(100002);
    ParseIntToString(0);
    TotalOfFour(scores);
    var f := Form("1", "19:00", "21:00", ["A", "B", "C", "D"], scores);
    assert Complete(f);
    assert Total(scores) == TARGET_TOTAL + INT_RANGE;
    assert Wrap32(Total(scores)) == TARGET_TOTAL;
  }

  lemma TotalOfFour(s: seq<string>)
    requires |s| == 4
    ensures Total(s) == ParseOrZero(s[0]) + ParseOrZero(s[1]) + ParseOrZero(s[2]) + ParseOrZero(s[3])
  {
    assert s[..1][..0] == [];
    assert Total(s[..1]) == ParseOrZero(s[0]);
    assert s[..2][..1] == s[..1];
    assert Total(s[..2]) == Total(s[..1]) + ParseOrZero(s[1]);
    assert s[..3][..2] == s[..2];
    assert Total(s[..3]) == Total(s[..2]) + ParseOrZero(s[2]);
    assert s[..4] == s;
    assert Total(s) == Total(s[..3]) + ParseOrZero(s[3]);
  }

  /** `NumberInputField`'s filter: an edit is kept only when every character is a digit. */
  function FilterDigits(current: string, proposed: string): (r: string)
    ensures AllDigits(proposed) ==> r == proposed
    ensures !AllDigits(proposed) ==> r == current
    ensures AllDigits(current) ==> AllDigits(r)
  {
    if AllDigits(proposed) then proposed else current
  }

  /** The form fields a user can type into. */
  datatype Field =
    | GameNumber
    | StartTime
    | EndTime
    | PlayerName(index: nat)
    | PlayerScore(index: nat)

  /** The field exists in a form with `names` names and `scores` scores. */
  predicate Fits(field: Field, names: nat, scores: nat) {
    match field
    case PlayerName(i) => i < names
    case PlayerScore(i) => i < scores
    case _ => true
  }

  /** The fields behind a `NumberInputField` hold only digits. */
  predicate NumberFieldsDigits(f: Form) {
    && AllDigits(f.gameNumber)
    && (forall i :: 0 <= i < |f.playerScores| ==> AllDigits(f.playerScores[i]))
  }

  /** One keystroke's new value offered to a field. */
  function Edit(f: Form, field: Field, value: string): (r: Form)
    requires Fits(field, |f.playerNames|, |f.playerScores|)
    ensures |r.playerNames| == |f.playerNames| && |r.playerScores| == |f.playerScores|
    ensures NumberFieldsDigits(f) ==> NumberFieldsDigits(r)
    ensures (field.GameNumber? || field.PlayerScore?) && !AllDigits(value) ==> r == f
    ensures field.PlayerName? ==>
              r.playerNames[field.index] == value
              && (forall i :: 0 <= i < |f.playerNames| && i != field.index ==> r.playerNames[i] == f.playerNames[i])
    ensures field.PlayerScore? && AllDigits(value) ==>
              r.playerScores[field.index] == value
              && (forall i :: 0 <= i < |f.playerScores| && i != field.index ==> r.playerScores[i] == f.playerScores[i])
    ensures field.GameNumber? && AllDigits(value) ==> r.gameNumber == value
    ensures field.StartTime? ==> r.startTime == value
    ensures field.EndTime? ==> r.endTime == value
    ensures !field.GameNumber? ==> r.gameNumber == f.gameNumber
    ensures !field.StartTime? ==> r.startTime == f.startTime
    ensures !field.EndTime? ==> r.endTime == f.endTime
    ensures !field.PlayerName? ==> r.playerNames == f.playerNames
    ensures !field.PlayerScore? ==> r.playerScores == f.playerScores
  {
    match field
    case GameNumber => f.(gameNumber := FilterDigits(f.gameNumber, value))
    case StartTime => f.(startTime := value)
    case EndTime => f.(endTime := value)
    case PlayerName(i) => f.(playerNames := f.playerNames[i := value])
    case PlayerScore(i) => f.(playerScores := f.playerScores[i := FilterDigits(f.playerScores[i], value)])
  }

  predicate AllFit(edits: seq<(Field, string)>, names: nat, scores: nat) {
    forall k :: 0 <= k < |edits| ==> Fits(edits[k].0, names, scores)
  }

  function ApplyEdits(f: Form, edits: seq<(Field, string)>): (r: Form)
    requires AllFit(edits, |f.playerNames|, |f.playerScores|)
    ensures |r.playerNames| == |f.playerNames| && |r.playerScores| == |f.playerScores|
    decreases |edits|
  {
    if |edits| == 0 then f
    else ApplyEdits(Edit(f, edits[0].0, edits[0].1), edits[1..])
  }

  /** No sequence of keystrokes puts a non-digit into a number field. */
  lemma {:induction false} EditsKeepDigits(f: Form, edits: seq<(Field, string)>)
    requires AllFit(edits, |f.playerNames|, |f.playerScores|)
    requires NumberFieldsDigits(f)
    ensures NumberFieldsDigits(ApplyEdits(f, edits))
    decreases |edits|
  {
    if |edits| > 0 {
      EditsKeepDigits(Edit(f, edits[0].0, edits[0].1), edits[1..]);
    }
  }

  /** The screen: the form and the error message line ("" is `None`). */
  datatype MainState = MainState(form: Form, errorMessage: Option<FormError>)

  datatype Step = Step(state: MainState, navigation: Option<Route>)

  /** Pressing the button: the message is cleared, then set by the failing check, if any. */
  function Press(s: MainState): (r: Step)
    ensures r.state.form == s.form
    ensures r.navigation.Some? <==> r.state.errorMessage.None?
    ensures r.navigation.Some? <==> Complete(s.form) && Total(s.form.playerScores) == TARGET_TOTAL
    ensures r.navigation.Some? ==> Submit(s.form) == Navigate(r.navigation.value)
    ensures r.state.errorMessage.Some? ==> Submit(s.form) == Rejected(r.state.errorMessage.value)
  {
    match Submit(s.form)
    case Navigate(route) => Step(MainState(s.form, None), Some(route))
    case Rejected(e) => Step(MainState(s.form, Some(e)), None)
  }

  /** The message shown before the press has no influence on what the press does. */
  lemma PressForgetsOldMessage(f: Form, old1: Option<FormError>, old2: Option<FormError>)
    ensures Press(MainState(f, old1)) == Press(MainState(f, old2))
    ensures Press(Press(MainState(f, old1)).state) == Press(MainState(f, old1))
  {
  }

  /** The five navigation arguments of the "main" route; `None` is an absent argument. */
  datatype MainArgs = MainArgs(
    gameNumber: Option<string>,
    startTime: Option<string>,
    endTime: Option<string>,
    playerNames: Option<string>,
    playerScores: Option<string>)

  /** The default of an absent list argument. */
  const EMPTY_LIST_ARG: string := ",,,"

  /** The form a bare "main" route opens with. */
  function FreshForm(): Form {
    Form("", "", "", ["", "", "", ""], ["", "", "", ""])
  }

  /** The form the "main/..." route opens with: absent arguments take their defaults. */
  function OpenMain(a: MainArgs): (f: Form)
    ensures |f.playerNames| >= 1 && |f.playerScores| >= 1
    ensures a.playerNames.None? ==> f.playerNames == ["", "", "", ""]
    ensures a.playerScores.None? ==> f.playerScores == ["", "", "", ""]
    ensures a.playerNames.Some? ==> Join(f.playerNames, COMMA) == a.playerNames.value
    ensures a.playerScores.Some? ==> Join(f.playerScores, COMMA) == a.playerScores.value
  {
    SplitDefault();
    JoinSplit(a.playerNames.GetOr(EMPTY_LIST_ARG), COMMA);
    JoinSplit(a.playerScores.GetOr(EMPTY_LIST_ARG), COMMA);
    Form(a.gameNumber.GetOr(""), a.startTime.GetOr(""), a.endTime.GetOr(""),
         Split(a.playerNames.GetOr(EMPTY_LIST_ARG), COMMA),
         Split(a.playerScores.GetOr(EMPTY_LIST_ARG), COMMA))
  }

  /** A "main/..." route with every argument absent opens the same form as a bare "main". */
  lemma AbsentArgsGiveFreshForm()
    ensures OpenMain(MainArgs(None, None, None, None, None)) == FreshForm()
  {
    SplitDefault();
  }

  function MainArgsOf(r: Route): MainArgs {
    MainArgs(Some(r.gameNumber), Some(r.startTime), Some(r.endTime), Some(r.playerNames), Some(r.playerScores))
  }

  /**
   A route built from comma-free lists reopens the input screen with exactly
   those fields: the back button's round trip.
   */
  lemma {:induction false} OpenEncodedRoute(dest: Destination, gameNumber: string, startTime: string, endTime: string,
                                            names: seq<string>, scores: seq<string>)
    requires |names| >= 1 && |scores| >= 1
    requires FreeOf(names, COMMA) && FreeOf(scores, COMMA)
    ensures OpenMain(MainArgsOf(EncodeRoute(dest, gameNumber, startTime, endTime, names, scores)))
            == Form(gameNumber, startTime, endTime, names, scores)
  {
    SplitJoin(names, COMMA);
    SplitJoin(scores, COMMA);
  }

  /** What the "result/..." route hands to the result screen. */
  datatype ResultArgs = ResultArgs(
    gameNumber: string,
    startTime: string,
    endTime: string,
    playerNames: seq<string>,
    playerScores: seq<string>)

  function OpenResult(r: Route): (a: ResultArgs)
    ensures |a.playerNames| == Count(r.playerNames, COMMA) + 1
    ensures |a.playerScores| == Count(r.playerScores, COMMA) + 1
    ensures FreeOf(a.playerNames, COMMA) && FreeOf(a.playerScores, COMMA)
    ensures Join(a.playerNames, COMMA) == r.playerNames && Join(a.playerScores, COMMA) == r.playerScores
    ensures (a.gameNumber, a.startTime, a.endTime) == (r.gameNumber, r.startTime, r.endTime)
  {
    JoinSplit(r.playerNames, COMMA);
    JoinSplit(r.playerScores, COMMA);
    ResultArgs(r.gameNumber, r.startTime, r.endTime, Split(r.playerNames, COMMA), Split(r.playerScores, COMMA))
  }

  /**
   A successful submit hands the raw field strings, unchanged, to the result
   screen, when both lists are non-empty and free of commas.
   */
  lemma {:induction false} SubmitCarriesRawFields(f: Form)
    requires Submit(f).Navigate?
    requires |f.playerNames| >= 1 && |f.playerScores| >= 1
    requires FreeOf(f.playerNames, COMMA) && FreeOf(f.playerScores, COMMA)
    ensures OpenResult(Submit(f).route)
            == ResultArgs(f.gameNumber, f.startTime, f.endTime, f.playerNames, f.playerScores)
  {
    SplitJoin(f.playerNames, COMMA);
    SplitJoin(f.playerScores, COMMA);
  }
}

=== FILE: ranking.dfy ===
/**
 The ranking of `ResultScreen.kt`: scores parsed with unparsable ones as 0,
 names zipped with scores, and Kotlin's `sortedByDescending { it.second }`,
 which is stable, modelled as an insertion sort.
 */
module Ranking {
  import opened IntText

  /** One `Pair<String, Int>` of `names.zip(scores)`. */
  datatype Player = Player(name: string, score: int)

  function ParseScores(scores: seq<string>): (r: seq<int>)
    ensures |r| == |scores|
    ensures forall i :: 0 <= i < |r| ==> r[i] == ParseOrZero(scores[i])
  {
    if |scores| == 0 then [] else [ParseOrZero(scores[0])] + ParseScores(scores[1..])
  }

  /** `names.zip(scores)`: as long as the shorter list. */
  function Zip(names: seq<string>, scores: seq<int>): (r: seq<Player>)
    ensures |r| == if |names| < |scores| then |names| else |scores|
    ensures forall i :: 0 <= i < |r| ==> r[i] == Player(names[i], scores[i])
  {
    if |names| == 0 || |scores| == 0 then []
    else [Player(names[0], scores[0])] + Zip(names[1..], scores[1..])
  }

  /** Scores never increase along `s`. */
  predicate Descending(s: seq<Player>) {
    forall i, j :: 0 <= i < j < |s| ==> s[i].score >= s[j].score
  }

  /** The entries of `s` that have score `k`, in their order in `s`. */
  function WithScore(s: seq<Player>, k: int): seq<Player> {
    if |s| == 0 then []
    else (if s[0].score == k then [s[0]] else []) + WithScore(s[1..], k)
  }

  /**
   Puts `p` in front of the first entry whose score is not greater: `p` goes
   after the higher scores and before the entries it ties with.
   */
  function Insert(p: Player, s: seq<Player>): (r: seq<Player>)
    ensures |r| == |s| + 1
    ensures multiset(r) == multiset([p] + s)
  {
    if |s| == 0 || p.score >= s[0].score then [p] + s
    else
      assert multiset([p] + s) == multiset([s[0]] + ([p] + s[1..])) by {
        assert s == [s[0]] + s[1..];
      }
      [s[0]] + Insert(p, s[1..])
  }

  function SortByScoreDescending(s: seq<Player>): (r: seq<Player>)
    ensures |r| == |s|
    ensures multiset(r) == multiset(s)
  {
    if |s| == 0 then []
    else
      assert s == [s[0]] + s[1..];
      Insert(s[0], SortByScoreDescending(s[1..]))
  }

  /** `playerNames.zip(playerScoresInt).sortedByDescending { it.second }`. */
  function Ranked(names: seq<string>, scores: seq<string>): (r: seq<Player>)
    ensures |r| == if |names| < |scores| then |names| else |scores|
    ensures multiset(r) == multiset(Zip(names, ParseScores(scores)))
    ensures Descending(r)
    ensures forall k :: WithScore(r, k) == WithScore(Zip(names, ParseScores(scores)), k)
  {
    var zipped := Zip(names, ParseScores(scores));
    SortDescending(zipped);
    SortStable(zipped);
    SortByScoreDescending(zipped)
  }

  lemma WithScoreCons(x: Player, t: seq<Player>, k: int)
    ensures WithScore([x] + t, k) == (if x.score == k then [x] else []) + WithScore(t, k)
  {
    assert ([x] + t)[1..] == t;
  }

  lemma WithScoreHead(s: seq<Player>)
    requires |s| > 0
    ensures WithScore(s, s[0].score) != []
  {
  }

  /** Inserting into a descending list keeps it descending. */
  lemma {:induction false} InsertDescending(p: Player, s: seq<Player>)
    requires Descending(s)
    ensures Descending(Insert(p, s))
    ensures |s| > 0 ==> Insert(p, s)[0] == p || Insert(p, s)[0] == s[0]
  {
    if |s| > 0 && p.score < s[0].score {
      var t := Insert(p, s[1..]);
      InsertDescending(p, s[1..]);
      assert t[0].score <= s[0].score;
      var r := [s[0]] + t;
      forall i, j | 0 <= i < j < |r|
        ensures r[i].score >= r[j].score
      {
        if i == 0 {
          assert r[j] == t[j - 1];
          assert t[0].score >= t[j - 1].score;
        } else {
          assert r[i] == t[i - 1] && r[j] == t[j - 1];
        }
      }
    }
  }

  /** Insertion moves `p` only past entries with a different score. */
  lemma {:induction false} InsertStable(p: Player, s: seq<Player>, k: int)
    ensures WithScore(Insert(p, s), k) == WithScore([p] + s, k)
  {
    if |s| > 0 && p.score < s[0].score {
      var s0, rest := s[0], s[1..];
      var wp := if p.score == k then [p] else [];
      var ws := if s0.score == k then [s0] else [];
      assert wp == [] || ws == [];
      calc {
        WithScore(Insert(p, s), k);
        WithScore([s0] + Insert(p, rest), k);
        { WithScoreCons(s0, Insert(p, rest), k); }
        ws + WithScore(Insert(p, rest), k);
        { InsertStable(p, rest, k); }
        ws + WithScore([p] + rest, k);
        { WithScoreCons(p, rest, k); }
        ws + (wp + WithScore(rest, k));
        wp + (ws + WithScore(rest, k));
        { WithScoreCons(s0, rest, k); assert [s0] + rest == s; }
        wp + WithScore(s, k);
        { WithScoreCons(p, s, k); }
        WithScore([p] + s, k);
      }
    }
  }

  lemma {:induction false} SortDescending(s: seq<Player>)
    ensures Descending(SortByScoreDescending(s))
  {
    if |s| > 0 {
      SortDescending(s[1..]);
      InsertDescending(s[0], SortByScoreDescending(s[1..]));
    }
  }

  /** Entries with equal scores keep their input order. */
  lemma {:induction false} SortStable(s: seq<Player>)
    ensures forall k :: WithScore(SortByScoreDescending(s), k) == WithScore(s, k)
  {
    if |s| > 0 {
      SortStable(s[1..]);
      forall k
        ensures WithScore(SortByScoreDescending(s), k) == WithScore(s, k)
      {
        InsertStable(s[0], SortByScoreDescending(s[1..]), k);
        WithScoreCons(s[0], SortByScoreDescending(s[1..]), k);
        WithScoreCons(s[0], s[1..], k);
        assert [s[0]] + s[1..] == s;
      }
    }
  }

  /**
   Descending order plus input order among equal scores leaves one possible
   result: every stable descending sort agrees with `SortByScoreDescending`.
   */
  lemma {:induction false} StableDescendingIsUnique(a: seq<Player>, b: seq<Player>)
    requires Descending(a) && Descending(b)
    requires forall k :: WithScore(a, k) == WithScore(b, k)
    ensures a == b
    decreases |a|
  {
    if |a| == 0 || |b| == 0 {
      if |a| > 0 {
        WithScoreHead(a);
        assert false;
      } else if |b| > 0 {
        WithScoreHead(b);
        assert false;
      }
    } else {
      assert a == [a[0]] + a[1..];
      assert b == [b[0]] + b[1..];
      HeadScoreIsMax(a, b);
      HeadScoreIsMax(b, a);
      var m := a[0].score;
      WithScoreCons(a[0], a[1..], m);
      WithScoreCons(b[0], b[1..], m);
      assert a[0] == WithScore(a, m)[0] == WithScore(b, m)[0] == b[0];
      forall k
        ensures WithScore(a[1..], k) == WithScore(b[1..], k)
      {
        WithScoreCons(a[0], a[1..], k);
        WithScoreCons(b[0], b[1..], k);
        var w := if a[0].score == k then [a[0]] else [];
        assert WithScore(a, k) == w + WithScore(a[1..], k);
        assert WithScore(b, k) == w + WithScore(b[1..], k);
        assert WithScore(a[1..], k) == WithScore(a, k)[|w|..];
        assert WithScore(b[1..], k) == WithScore(b, k)[|w|..];
      }
      StableDescendingIsUnique(a[1..], b[1..]);
    }
  }

  /** Two lists with the same entries per score start with the same score when descending. */
  lemma HeadScoreIsMax(a: seq<Player>, b: seq<Player>)
    requires |a| > 0 && |b| > 0
    requires Descending(b)
    requires forall k :: WithScore(a, k) == WithScore(b, k)
    ensures b[0].score >= a[0].score
  {
    WithScoreHead(a);
    assert WithScore(b, a[0].score) != [];
    WithScoreMember(b, a[0].score);
    var j :| 0 <= j < |b| && b[j].score == a[0].score;
    assert j == 0 || b[0].score >= b[j].score;
  }

  /** A non-empty `WithScore(s, k)` means some entry of `s` has score `k`. */
  lemma {:induction false} WithScoreMember(s: seq<Player>, k: int)
    requires WithScore(s, k) != []
    ensures exists j :: 0 <= j < |s| && s[j].score == k
  {
    if s[0].score != k {
      WithScoreMember(s[1..], k);
      var j :| 0 <= j < |s[1..]| && s[1..][j].score == k;
      assert s[j + 1].score == k;
    }
  }

  /** An input already in descending order comes out unchanged. */
  lemma SortKeepsDescending(s: seq<Player>)
    requires Descending(s)
    ensures SortByScoreDescending(s) == s
  {
    SortDescending(s);
    SortStable(s);
    StableDescendingIsUnique(SortByScoreDescending(s), s);
  }

  /** Players entered already in descending order are ranked in the order entered. */
  lemma RankedKeepsInputOrder(names: seq<string>, scores: seq<string>)
    requires Descending(Zip(names, ParseScores(scores)))
    ensures Ranked(names, scores) == Zip(names, ParseScores(scores))
  {
    SortKeepsDescending(Zip(names, ParseScores(scores)));
  }
}

=== FILE: result_screen.dfy ===
/**
 The result screen of `ResultScreen.kt`: each ranked player's uma, the
 formatted lines, the six-line summary that is shown and copied, and the
 route back to the input screen.
 */
module ResultScreen {
  import opened Wrappers
  import opened IntText
  import opened Delimited
  import opened Ranking
  import opened MainActivity

  /** A player's even share of the 100000 points. */
  const BASELINE: int := 25000

  const NEWLINE: char := '\n'

  function Abs(x: int): nat {
    if x < 0 then -x else x
  }

  /**
   `round(uma * 10)` for `uma = (score - 25000) / 1000.0`: the number of tenths
   nearest to (score - 25000) / 100, ties going to the even neighbour as
   `kotlin.math.round` does.
   */
  function UmaTenths(score: int): (t: int)
    ensures -50 <= (score - BASELINE) - 100 * t <= 50
    ensures (score - BASELINE) - 100 * t == 50 || (score - BASELINE) - 100 * t == -50 ==> t % 2 == 0
    ensures score >= BASELINE ==> t >= 0
    ensures score < BASELINE ==> t <= 0
  {
    var d := score - BASELINE;
    var q, m := d / 100, d % 100;
    if m < 50 then q
    else if m > 50 then q + 1
    else if q % 2 == 0 then q
    else q + 1
  }

  /** Rounding to nearest with ties to even has exactly one answer. */
  lemma RoundHalfEvenUnique(score: int, t: int)
    requires -50 <= (score - BASELINE) - 100 * t <= 50
    requires (score - BASELINE) - 100 * t == 50 || (score - BASELINE) - 100 * t == -50 ==> t % 2 == 0
    ensures t == UmaTenths(score)
  {
    var u := UmaTenths(score);
    assert -100 <= 100 * (u - t) <= 100;
  }

  /**
   `s` prints the tenths count `v` with one fractional digit: a whole part
   without leading zeros, '.', and the tenths digit.
   */
  predicate TenthsText(s: string, v: nat) {
    && |s| >= 3
    && s[|s| - 2] == '.'
    && AllDigits(s[..|s| - 2]) && IsDigit(s[|s| - 1])
    && (s[0] == '0' ==> |s| == 3)
    && DigitsValue(s[..|s| - 2]) * 10 + DigitValue(s[|s| - 1]) == v
  }

  /** A tenths count printed as its whole part, '.', and its tenths digit. */
  lemma TenthsTextOf(v: nat)
    ensures TenthsText(NatToString(v / 10) + "." + [DigitChar(v % 10)], v)
  {
    var whole := NatToString(v / 10);
    var digits := whole + "." + [DigitChar(v % 10)];
    assert digits[..|digits| - 2] == whole;
    assert digits[|digits| - 2] == '.' && digits[|digits| - 1] == DigitChar(v % 10);
    assert whole[0] == '0' ==> |whole| == 1 by {
      if whole[0] == '0' {
        assert v / 10 == 0;
      }
    }
  }

  /**
   `round(uma * 10) / 10` as `Double.toString` prints it: one fractional digit,
   and a rounded zero keeps the sign of the unrounded uma, so scores just below
   25000 print as "-0.0".
   */
  function UmaText(score: int): (r: string)
    ensures |r| > 0
    ensures r[0] == '-' <==> score < BASELINE
    ensures forall i :: 0 < i < |r| ==> IsDigit(r[i]) || r[i] == '.'
    ensures TenthsText(if r[0] == '-' then r[1..] else r, Abs(UmaTenths(score)))
  {
    var t := UmaTenths(score);
    var negative := t < 0 || (t == 0 && score < BASELINE);
    var whole := NatToString(Abs(t) / 10);
    var digits := whole + "." + [DigitChar(Abs(t) % 10)];
    TenthsTextOf(Abs(t));
    var r := (if negative then "-" else "") + digits;
    assert (if r[0] == '-' then r[1..] else r) == digits by {
      assert IsDigit(digits[0]);
      if negative {
        assert r[1..] == digits;
      }
    }
    r
  }

  /** "+" in front of a non-negative uma. */
  function SignPrefix(score: int): string {
    if (score - BASELINE) >= 0 then "+" else ""
  }

  /** The uma column: exactly one sign, '+' from 25000 up and '-' below, then digits and one '.'. */
  function UmaColumn(score: int): (u: string)
    ensures |u| >= 2
    ensures u[0] == (if score >= BASELINE then '+' else '-')
    ensures forall i :: 0 < i < |u| ==> IsDigit(u[i]) || u[i] == '.'
  {
    SignPrefix(score) + UmaText(score)
  }

  /** After its sign, the uma column prints the rounded uma's tenths count with one fractional digit. */
  lemma UmaColumnValue(score: int)
    ensures TenthsText(UmaColumn(score)[1..], Abs(UmaTenths(score)))
  {
    var text := UmaText(score);
    var u := UmaColumn(score);
    assert u[1..] == if text[0] == '-' then text[1..] else text;
  }

  /**
   Around the baseline: 25000 points print "+0.0", while 24990 points round to
   zero tenths but keep the sign of -0.01 and print "-0.0".
   */
  lemma UmaAtBaseline()
    ensures UmaColumn(25000) == "+0.0"
    ensures UmaColumn(24990) == "-0.0"
  {
    assert UmaTenths(25000) == 0 && UmaTenths(24990) == 0;
    assert NatToString(0) == "0";
  }

  /** "{rank}. {name} {score} {sign}{uma}". */
  function Line(rank: int, p: Player): string {
    IntToString(rank) + (". " + p.name + " " + IntToString(p.score) + " " + UmaColumn(p.score))
  }

  /** `sortedPlayers.mapIndexed`: the entry at position i gets rank i + 1. */
  function Lines(sorted: seq<Player>): (r: seq<string>)
    ensures |r| == |sorted|
    ensures forall i :: 0 <= i < |r| ==> r[i] == Line(i + 1, sorted[i])
  {
    seq(|sorted|, i requires 0 <= i < |sorted| => Line(i + 1, sorted[i]))
  }

  /** Line i opens with the decimal rank i + 1, which reads back as i + 1, then ". ". */
  lemma LineRank(sorted: seq<Player>, i: nat)
    requires i < |sorted| && i < INT_MAX
    ensures var l, n := Lines(sorted)[i], |IntToString(i + 1)|;
            && l[n..n + 2] == ". "
            && ParseInt(l[..n]) == Some(i + 1)
  {
    var p := sorted[i];
    var s := IntToString(i + 1);
    var tail := ". " + p.name + " " + IntToString(p.score) + " " + UmaColumn(p.score);
    var l := s + tail;
    assert Lines(sorted)[i] == l;
    assert l[..|s|] == s;
    assert tail[0] == '.' && tail[1] == ' ';
    assert l[|s|..|s| + 2] == [tail[0], tail[1]];
    ParseIntToString(i + 1);
  }

  /** The text shown and copied: game number, "start~end", then the first four lines. */
  function Summary(gameNumber: string, startTime: string, endTime: string, lines: seq<string>): string
    requires |lines| >= 4
  {
    Join([gameNumber, startTime + "~" + endTime, lines[0], lines[1], lines[2], lines[3]], NEWLINE)
  }

  /** Without line breaks in the fields, the summary reads back as exactly six lines. */
  lemma SummarySixLines(gameNumber: string, startTime: string, endTime: string, lines: seq<string>)
    requires |lines| >= 4
    requires NEWLINE !in gameNumber && NEWLINE !in startTime && NEWLINE !in endTime
    requires forall i :: 0 <= i < 4 ==> NEWLINE !in lines[i]
    ensures Split(Summary(gameNumber, startTime, endTime, lines), NEWLINE)
            == [gameNumber, startTime + "~" + endTime, lines[0], lines[1], lines[2], lines[3]]
  {
    var six := [gameNumber, startTime + "~" + endTime, lines[0], lines[1], lines[2], lines[3]];
    assert FreeOf(six, NEWLINE) by {
      forall i | 0 <= i < 6
        ensures NEWLINE !in six[i]
      {
        if i >= 2 {
          assert six[i] == lines[i - 2];
        }
      }
    }
    SplitJoin(six, NEWLINE);
  }

  /** A line has no line break when the player's name has none. */
  lemma LineHasNoBreak(rank: int, p: Player)
    requires NEWLINE !in p.name
    ensures NEWLINE !in Line(rank, p)
  {
    var r, s, u := IntToString(rank), IntToString(p.score), UmaColumn(p.score);
    assert NEWLINE !in r by {
      forall k | 0 <= k < |r|
        ensures r[k] != NEWLINE
      {
        if k > 0 {
          assert IsDigit(r[k]);
        }
      }
    }
    assert NEWLINE !in s by {
      forall k | 0 <= k < |s|
        ensures s[k] != NEWLINE
      {
        if k > 0 {
          assert IsDigit(s[k]);
        }
      }
    }
    assert NEWLINE !in u by {
      forall k | 0 <= k < |u|
        ensures u[k] != NEWLINE
      {
        if k > 0 {
          assert IsDigit(u[k]) || u[k] == '.';
        }
      }
    }
  }

  /** What the result screen holds: the summary text and the back button's route. */
  datatype View = View(resultText: string, back: Route)

  /** The result screen either shows its view or throws while building the summary. */
  datatype Screen = Crashed | Shown(view: View)

  /**
   The result screen for the route's arguments. Fewer than four ranked players
   make the summary's `formattedScores[3]` throw. The back button re-encodes
   the names and the raw score strings exactly as received, unsorted.
   */
  function Show(gameNumber: string, startTime: string, endTime: string,
                names: seq<string>, scores: seq<string>): (s: Screen)
    ensures s.Crashed? <==> |names| < 4 || |scores| < 4
    ensures s.Shown? ==> s.view.back.dest == MainDest
    ensures s.Shown? ==>
              OpenMain(MainArgsOf(s.view.back)) == Form(gameNumber, startTime, endTime,
                                                        Split(Join(names, COMMA), COMMA), Split(Join(scores, COMMA), COMMA))
    ensures s.Shown? && FreeOf(names, COMMA) && FreeOf(scores, COMMA) ==>
              OpenMain(MainArgsOf(s.view.back)) == Form(gameNumber, startTime, endTime, names, scores)
  {
    var lines := Lines(Ranked(names, scores));
    if |lines| < 4 then Crashed
    else
      var back := EncodeRoute(MainDest, gameNumber, startTime, endTime, names, scores);
      OpenBackRoute(gameNumber, startTime, endTime, names, scores);
      Shown(View(Summary(gameNumber, startTime, endTime, lines), back))
  }

  /**
   The back route reopens the input screen with each list split back from its
   comma-join; for non-empty comma-free lists that is the lists themselves.
   */
  lemma OpenBackRoute(gameNumber: string, startTime: string, endTime: string,
                      names: seq<string>, scores: seq<string>)
    ensures OpenMain(MainArgsOf(EncodeRoute(MainDest, gameNumber, startTime, endTime, names, scores)))
            == Form(gameNumber, startTime, endTime, Split(Join(names, COMMA), COMMA), Split(Join(scores, COMMA), COMMA))
    ensures |names| >= 1 && |scores| >= 1 && FreeOf(names, COMMA) && FreeOf(scores, COMMA) ==>
              OpenMain(MainArgsOf(EncodeRoute(MainDest, gameNumber, startTime, endTime, names, scores)))
              == Form(gameNumber, startTime, endTime, names, scores)
  {
    if |names| >= 1 && |scores| >= 1 && FreeOf(names, COMMA) && FreeOf(scores, COMMA) {
      SplitJoin(names, COMMA);
      SplitJoin(scores, COMMA);
    }
  }

  /**
   Line 3 + i of the shown text is the player at sorted position i, with rank i + 1;
   the lines hold scores that never increase.
   */
  lemma ResultTextLines(gameNumber: string, startTime: string, endTime: string,
                        names: seq<string>, scores: seq<string>)
    requires |names| >= 4 && |scores| >= 4
    requires NEWLINE !in gameNumber && NEWLINE !in startTime && NEWLINE !in endTime
    requires forall i :: 0 <= i < |names| ==> NEWLINE !in names[i]
    ensures var text, ranked := Show(gameNumber, startTime, endTime, names, scores).view.resultText, Ranked(names, scores);
            && Split(text, NEWLINE) == [gameNumber, startTime + "~" + endTime,
                                        Line(1, ranked[0]), Line(2, ranked[1]), Line(3, ranked[2]), Line(4, ranked[3])]
            && ranked[0].score >= ranked[1].score >= ranked[2].score >= ranked[3].score
  {
    var ranked := Ranked(names, scores);
    var zipped := Zip(names, ParseScores(scores));
    var lines := Lines(ranked);
    forall i | 0 <= i < 4
      ensures NEWLINE !in lines[i]
    {
      assert ranked[i] in multiset(zipped);
      var j :| 0 <= j < |zipped| && zipped[j] == ranked[i];
      LineHasNoBreak(i + 1, ranked[i]);
    }
    SummarySixLines(gameNumber, startTime, endTime, lines);
  }
}

=== FILE: wrappers.dfy ===
/** The optional value used for Kotlin's nullable results (`String?`, `Int?`). */
module Wrappers {

  datatype Option<+T> = None | Some(value: T) {

    /** Kotlin's elvis operator `x ?: default`. */
    function GetOr(default: T): T {
      match this
      case Some(v) => v
      case None => default
    }
  }
}
